=== FILE: README.md ===
# Snake game panel — a Dafny model of its game logic

The repository is a single-window Snake game. One Swing component, `GamePanel`, owns everything:
the drawing, a 75 ms timer and the rules of the game. This project models the rules. They form a
small sequential state machine over integers:

- two coordinate arrays of capacity `GAME_UNITS` = 600·600/25 = 14400. Slot 0 is the head; slots
  1 .. `nBodyParts` − 1 are the drawn body;
- `nBodyParts` (starts at 6), `nApplesEaten` (starts at 0), the apple position, `direction` (one of
  `'U'`, `'D'`, `'L'`, `'R'`, starts at `'R'`) and `running`.

A timer tick (`actionPerformed`) does nothing unless the game is running. Otherwise it moves the
snake, checks the apple and checks collisions. `move` is a shift register: slots are copied
tail-ward, in place, from index `nBodyParts` down to 1. Then the head steps one `UNIT_SIZE` in
`direction`. When the head is on the apple, the body grows by one, the score grows by one and a
new apple is placed. The body scan runs before the border check, and either one ends the game. A
key press turns the snake unless the turn would reverse it.

The project has three modules:

- `Rules` (Rules.dfy): the constants, a value snapshot `Game` of the panel's fields, and one
  function per operation giving its effect on a snapshot. It also holds `Inv`, which describes
  every reachable state, and the proof that a tick and a key press keep `Inv`.
- `Panel` (GamePanel.dfy): class `GamePanel`, with the two arrays and the fields, changed in place
  by methods with the source's loops. Each method is proved to change the snapshot `Model()`
  exactly as the matching `Rules` function says.
- `Traces` (Traces.dfy): arbitrary sequences of ticks and key presses, and lemmas about whole runs
  and about particular ticks.

Behaviour of the code that the model keeps as written:

- The self-collision scan covers slots `nBodyParts` down to 1 inclusive (src/GamePanel.java:248).
  That is one slot beyond the drawn body, which `drawSnake` draws as slots 0 .. `nBodyParts` − 1
  (src/GamePanel.java:109). Two consequences are proved as lemmas:
  - a head that moves into the cell the tail has just left loses the game (`IntoVacatedTailCellEndsGame`);
  - eating an apple at (0, 0) loses the game, because the newly counted slot has never been
    written and holds (0, 0) (`AppleAtOriginIsFatal`).
- The no-reversal rule compares a key with the direction last set, not with the direction of the
  last move, so from any direction two key presses between ticks can turn the snake back onto its neck
  (`TwoPressesReverse`).
- There is no reset or restart. The "Press SPACE to RESTART" text has no key handler behind it.
- The body starts as six copies of (0, 0), since the arrays start zeroed. The constructor only
  places an apple and sets `running`.
- `random.nextInt(units)` is replaced by a draw `r` in [0, 24) that the caller supplies. The apple
  goes to `r · UNIT_SIZE` on each axis and may land on the body.
- The array index that goes out of bounds once `nBodyParts` reaches the capacity is modelled, not
  excluded. `Move` and `CheckCollisions` return `ok == false` and leave the state exactly as the
  exception in the source leaves it. `TickThrows` says when a tick ends this way. Since such a
  tick never grows the body, `nBodyParts` never exceeds the capacity.

## Model

| member | source | states |
|---|---|---|
| `Rules.WidthUnits` | src/GamePanel.java:64-66 | the board is a whole number (24) of cells wide |
| `Rules.HeightUnits` | src/GamePanel.java:68-70 | the board is a whole number (24) of cells high |
| `Rules.PickCoordinate` | src/GamePanel.java:145-147 | a draw r in [0, units) becomes a multiple of UNIT_SIZE in [0, (units−1)·25], and r can be read back from it |
| `Rules.PlaceApple` | src/GamePanel.java:140-143 | newApple puts the apple at the top-left corner of a grid cell chosen by the two draws and changes nothing else |
| `Rules.Start` | src/GamePanel.java:17-36 | the state after construction: all slots (0, 0), 6 parts, 0 apples, heading 'R', running, the apple in the cell given by the two draws, and it satisfies the invariant |
| `Rules.Turned` | src/GamePanel.java:326-347 | a key press yields the old direction or the key's direction; a valid direction stays valid and never becomes its opposite; a non-reversing arrow key is always obeyed |
| `Rules.ShiftBack` | src/GamePanel.java:149-153 | slots 1..n take the old value of the slot before them; slot 0 and slots above n keep theirs |
| `Rules.Moved` | src/GamePanel.java:149-193 | after move, slot i holds old slot i−1 for 1 ≤ i ≤ nBodyParts, higher slots are unchanged, the head moves exactly UNIT_SIZE along the axis of the direction with the right sign, and no other field changes |
| `Rules.Eat` | src/GamePanel.java:207-211 | body and score both grow by exactly one (their difference is kept) and the apple is re-placed on the grid |
| `Rules.OnApple` | src/GamePanel.java:202-205 | for a head within reach of the board and an apple on the grid, the head is on the apple exactly when both are in the same grid cell (equal column and row numbers); a head on an on-grid apple is on the grid |
| `Rules.AfterCheckApple` | src/GamePanel.java:195-205 | when the head is on the apple, both counters grow by one and the apple moves to the drawn cell of the grid; otherwise nothing changes; the arrays, direction and running never change |
| `Rules.HitsBorder` | src/GamePanel.java:224-245 | the head is left of, right of, above or below the board; for a head on a cell corner, exactly when it is off the grid |
| `Rules.HitsBodyAfterMove` | src/GamePanel.java:248-253 | right after a move in one of the four directions, the inclusive scan finds the head exactly when it landed on a cell held before the move by slots 1..nBodyParts−1, the vacated tail cell included; never on the old head |
| `Rules.AfterCollisions` | src/GamePanel.java:213-254 | running afterwards iff it was running and the head is neither outside [0,600)×[0,600) nor on any slot 1..nBodyParts inclusive; nothing else changes |
| `Rules.AfterTick` | src/GamePanel.java:314-321 | a tick of a stopped game changes nothing; a tick never sets running from false to true; the counters' difference is kept, the score grows by at most one, the direction is untouched |
| `Rules.TickThrows` | src/GamePanel.java:150-152 | a running tick fails on an array index exactly when the body count is at the capacity (first write of move) or is one below it and the head lands on the apple (first read of the body scan, 248-249) |
| `Rules.TickKeepsInv` | src/GamePanel.java:314-321 | a tick keeps the invariant: counters coupled, body count at most the capacity, direction valid, apple on the grid, a running head inside the board, every slot a cell corner at most one unit outside it, unwritten slots zero |
| `Rules.TurnKeepsInv` | src/GamePanel.java:326-347 | a key press keeps the invariant |
| `Panel.GamePanel.constructor` | src/GamePanel.java:28-36 | the new panel's fields are the start state, which satisfies the invariant |
| `Panel.GamePanel.StartGame` | src/GamePanel.java:81-87 | places an apple and sets running, nothing else |
| `Panel.GamePanel.NewApple` | src/GamePanel.java:140-147 | changes only the apple, as PlaceApple says |
| `Panel.GamePanel.Move` | src/GamePanel.java:149-193 | the in-place descending loop and the head step give exactly Moved; at capacity nothing changes and ok is false |
| `Panel.GamePanel.ShiftBodyBack` | src/GamePanel.java:150-153 | after the descending loop the arrays are exactly ShiftBack of the old arrays: slots 1..nBodyParts hold the old slot before them, all others are unchanged |
| `Panel.GamePanel.StepHead` | src/GamePanel.java:155-193 | only slot 0 changes, by DeltaX/DeltaY of the direction: one UNIT_SIZE along its axis, nothing for any other character |
| `Panel.GamePanel.CheckApple` | src/GamePanel.java:195-205 | the fields change exactly as AfterCheckApple says |
| `Panel.GamePanel.EatApple` | src/GamePanel.java:207-211 | the fields change exactly as Eat says |
| `Panel.GamePanel.CheckCollisions` | src/GamePanel.java:213-254 | the fields change exactly as AfterCollisions says; at capacity the scan's first read fails and nothing changes |
| `Panel.GamePanel.CheckIsHeadCollidingWithBody` | src/GamePanel.java:247-254 | the scan with early exit clears running exactly when the head is on some slot 1..nBodyParts inclusive |
| `Panel.GamePanel.YouHaveLost` | src/GamePanel.java:256-259 | running becomes false and nothing else changes, so a second call is harmless |
| `Panel.GamePanel.ActionPerformed` | src/GamePanel.java:314-321 | the fields change exactly as AfterTick says, ok is false exactly when the source throws, and the invariant is kept |
| `Panel.GamePanel.KeyPressed` | src/GamePanel.java:323-349 | only the direction changes, as Turned says, and the invariant is kept |
| `Traces.RunKeepsInv` | src/GamePanel.java:314-347 | any sequence of ticks and key presses keeps the invariant |
| `Traces.Reachable` | src/GamePanel.java:19-20 | in every reachable state nBodyParts − nApplesEaten == 6, nApplesEaten ≥ 0, nBodyParts ≤ 14400, the direction is one of U, D, L, R and the apple is on the grid |
| `Traces.RunMonotone` | src/GamePanel.java:207-209 | over any run neither counter decreases and running never goes from false to true |
| `Traces.RunAfterLoss` | src/GamePanel.java:314-321 | once the game is lost, a run changes nothing but the direction |
| `Traces.FirstTick` | src/GamePanel.java:149-193 | the first tick takes the head from (0, 0) to (25, 0), leaves (0, 0) in every other slot and keeps the game running |
| `Traces.RightBorderEndsGame` | src/GamePanel.java:239-241 | a running head at x = 575 moving right reaches x = 600 and the game ends |
| `Traces.TurnThenTick` | src/GamePanel.java:155-168 | after a non-reversing arrow key, the next tick moves the head exactly one unit in the new direction |
| `Traces.TwoPressesReverse` | src/GamePanel.java:326-347 | from any of the four directions, some two arrow keys pressed before a tick leave the snake heading opposite to its last move |
| `Traces.IntoBodyEndsGame` | src/GamePanel.java:300-311 | a running head that moves onto the cell any drawn body slot 1..nBodyParts−1 held before the move ends the game at that tick |
| `Traces.IntoVacatedTailCellEndsGame` | src/GamePanel.java:248-253 | a head that moves into the cell the tail just left ends the game (the scan includes slot nBodyParts) |
| `Traces.AppleAtOriginIsFatal` | src/GamePanel.java:248-253 | eating an apple at (0, 0) counts the apple and ends the game, because the new slot nBodyParts is unwritten (0, 0) |

## Left out

- Rendering: `paintComponent`, `draw`, the grid lines, the snake, the apple, the game-over text
  and font centring. They are graphics calls and change no state.
- The Swing `Timer` (creation, `start`, `stop`, the 75 ms `DELAY`) and `repaint()`. The model
  keeps only the change to `running`; `Panel.GamePanel.YouHaveLost` and
  `Panel.GamePanel.StartGame` do not stop or start a timer.
- `java.util.Random`: the caller supplies each draw from [0, 24).
- The timing of key events against timer ticks. Key presses are separate calls between ticks.
- Reset, restart and exit on ESC: the source implements none of them.
- Whether `nBodyParts` can ever reach the capacity 14400 (the board has only 576 cells). The model
  handles that case as the source does but does not prove it unreachable.
- 32-bit integers: the model uses unbounded ones. `Inv` shows this loses nothing: the coordinates
  never leave [−25, 600] and both counters stay at most 14400.

=== FILE: GamePanel.dfy ===
/**
 * The game panel as the source has it: two fixed-size coordinate arrays and
 * a handful of fields, changed in place by the timer tick and by key
 * presses. Each method is proved to have the effect that the matching
 * function of module Rules gives to a snapshot of the fields.
 *
 * A method that returns `ok` reports with `ok == false` the array index that
 * is out of bounds in the source; the state it leaves is the state the
 * source leaves when that exception abandons the call.
 */
module Panel {
  import opened Rules

  class GamePanel {
    const xCoords: array<int>
    const yCoords: array<int>
    var nBodyParts: int
    var nApplesEaten: int
    var appleX: int
    var appleY: int
    var direction: char
    var running: bool

    /** A snapshot of the fields. */
    ghost function Model(): Game
      reads this, xCoords, yCoords
    {
      Game(xCoords[..], yCoords[..], nBodyParts, nApplesEaten, appleX, appleY, direction, running)
    }

    /** Two distinct arrays of the fixed capacity and a body count that is not negative. */
    ghost predicate Valid()
      reads this, xCoords, yCoords
    {
      xCoords != yCoords && Shaped(Model())
    }

    /** The constructor, with the two draws that startGame's newApple consumes. */
    constructor (rx: int, ry: int)
      requires Draws(rx, ry)
      ensures Valid() && fresh(xCoords) && fresh(yCoords)
      ensures Model() == Start(rx, ry)
      ensures Inv(Model())
    {
      xCoords := new int[GAME_UNITS](_ => 0);
      yCoords := new int[GAME_UNITS](_ => 0);
      nBodyParts := INITIAL_BODY_PARTS;
      nApplesEaten := 0;
      appleX, appleY := 0, 0;
      direction := 'R';
      running := false;
      new;
      StartGame(rx, ry);
      assert xCoords[..] == Start(rx, ry).xs;
      assert yCoords[..] == Start(rx, ry).ys;
    }

    /** startGame, without the timer: an apple and the running flag. */
    method StartGame(rx: int, ry: int)
      requires Valid() && Draws(rx, ry)
      modifies this
      ensures Valid()
      ensures Model() == PlaceApple(old(Model()), rx, ry).(running := true)
    {
      NewApple(rx, ry);
      running := true;
    }

    method NewApple(rx: int, ry: int)
      requires Valid() && Draws(rx, ry)
      modifies this`appleX, this`appleY
      ensures Valid()
      ensures Model() == PlaceApple(old(Model()), rx, ry)
    {
      appleX := PickCoordinate(rx, WidthUnits());
      appleY := PickCoordinate(ry, HeightUnits());
    }

    /**
     * move: copy slots tail-ward from nBodyParts down to 1, then step the
     * head. With nBodyParts at the capacity the very first write is out of
     * bounds and nothing changes.
     */
    method Move() returns (ok: bool)
      requires Valid()
      modifies xCoords, yCoords
      ensures Valid()
      ensures ok <==> nBodyParts < GAME_UNITS
      ensures Model() == if ok then Moved(old(Model())) else old(Model())
    {
      var n := nBodyParts;
      if n >= xCoords.Length {
        return false;
      }
      ghost var g := Model();
      ShiftBodyBack();
      StepHead();
      assert xCoords[..] == Moved(g).xs && yCoords[..] == Moved(g).ys;
      ok := true;
    }

    /**
     * The loop of move: slots nBodyParts down to 1 each take the value of
     * the slot before them (shiftXCoordinatesBackOne, shiftYCoordinatesBackOne).
     */
    method ShiftBodyBack()
      requires Valid() && nBodyParts < GAME_UNITS
      modifies xCoords, yCoords
      ensures Valid()
      ensures xCoords[..] == ShiftBack(old(xCoords[..]), nBodyParts)
      ensures yCoords[..] == ShiftBack(old(yCoords[..]), nBodyParts)
    {
      var n := nBodyParts;
      ghost var xs0, ys0 := xCoords[..], yCoords[..];
      var i := n;
      while i > 0
        invariant 0 <= i <= n
        invariant forall k :: 0 <= k <= i ==> xCoords[k] == xs0[k] && yCoords[k] == ys0[k]
        invariant forall k :: i < k <= n ==> xCoords[k] == xs0[k - 1] && yCoords[k] == ys0[k - 1]
        invariant forall k :: n < k < xCoords.Length ==> xCoords[k] == xs0[k] && yCoords[k] == ys0[k]
      {
        xCoords[i] := xCoords[i - 1];
        yCoords[i] := yCoords[i - 1];
        i := i - 1;
      }
      ShiftBackByPoints(xCoords[..], xs0, n);
      ShiftBackByPoints(yCoords[..], ys0, n);
    }

    /** The switch over `direction` in move: moveUp, moveDown, moveLeft or moveRight. */
    method StepHead()
      requires Valid()
      modifies xCoords, yCoords
      ensures Valid()
      ensures xCoords[..] == old(xCoords[..])[0 := old(xCoords[0]) + DeltaX(direction)]
      ensures yCoords[..] == old(yCoords[..])[0 := old(yCoords[0]) + DeltaY(direction)]
    {
      if direction == 'U' {
        yCoords[0] := yCoords[0] - UNIT_SIZE;
      } else if direction == 'D' {
        yCoords[0] := yCoords[0] + UNIT_SIZE;
      } else if direction == 'L' {
        xCoords[0] := xCoords[0] - UNIT_SIZE;
      } else if direction == 'R' {
        xCoords[0] := xCoords[0] + UNIT_SIZE;
      }
    }

    method CheckApple(rx: int, ry: int)
      requires Valid() && Draws(rx, ry)
      modifies this
      ensures Valid()
      ensures Model() == AfterCheckApple(old(Model()), rx, ry)
    {
      if xCoords[0] == appleX && yCoords[0] == appleY {
        EatApple(rx, ry);
      }
    }

    method EatApple(rx: int, ry: int)
      requires Valid() && Draws(rx, ry)
      modifies this
      ensures Valid()
      ensures Model() == Eat(old(Model()), rx, ry)
    {
      nBodyParts := nBodyParts + 1;
      nApplesEaten := nApplesEaten + 1;
      NewApple(rx, ry);
    }

    /** The body check, then the border check; either one loses the game. */
    method CheckCollisions() returns (ok: bool)
      requires Valid()
      modifies this`running
      ensures Valid()
      ensures ok <==> nBodyParts < GAME_UNITS
      ensures Model() == if ok then AfterCollisions(old(Model())) else old(Model())
    {
      if nBodyParts >= xCoords.Length {
        return false;
      }
      CheckIsHeadCollidingWithBody();
      if xCoords[0] < 0 || xCoords[0] >= SCREEN_WIDTH || yCoords[0] < 0 || yCoords[0] >= SCREEN_HEIGHT {
        YouHaveLost();
      }
      ok := true;
    }

    /**
     * Scan slots nBodyParts down to 1 for the head's cell and stop at the
     * first match. Slot nBodyParts is one past the drawn body.
     */
    method CheckIsHeadCollidingWithBody()
      requires Valid() && nBodyParts < GAME_UNITS
      modifies this`running
      ensures Valid()
      ensures running <==> old(running) && !HitsBody(old(Model()))
    {
      var i := nBodyParts;
      while i > 0
        invariant 0 <= i <= nBodyParts
        invariant running == old(running)
        invariant forall k :: i < k <= nBodyParts ==> !(xCoords[k] == xCoords[0] && yCoords[k] == yCoords[0])
      {
        if xCoords[0] == xCoords[i] && yCoords[0] == yCoords[i] {
          YouHaveLost();
          break;
        }
        i := i - 1;
      }
    }

    /** youHaveLost, without stopping the timer; a second call changes nothing. */
    method YouHaveLost()
      requires Valid()
      modifies this`running
      ensures Valid()
      ensures Model() == old(Model()).(running := false)
    {
      running := false;
    }

    /**
     * actionPerformed: one timer tick, with the two draws that a new apple
     * would consume if one is eaten.
     */
    method ActionPerformed(rx: int, ry: int) returns (ok: bool)
      requires Valid() && Draws(rx, ry)
      modifies this, xCoords, yCoords
      ensures Valid()
      ensures ok <==> !TickThrows(old(Model()), rx, ry)
      ensures Model() == AfterTick(old(Model()), rx, ry)
      ensures old(Inv(Model())) ==> Inv(Model())
    {
      ghost var before := Model();
      ok := true;
      if running {
        ok := Move();
        if ok {
          CheckApple(rx, ry);
          ok := CheckCollisions();
        }
      }
      if Inv(before) {
        TickKeepsInv(before, rx, ry);
      }
    }

    /** keyPressed of the key adapter: turn unless the turn reverses the snake. */
    method KeyPressed(keyCode: int)
      requires Valid()
      modifies this`direction
      ensures Valid()
      ensures Model() == old(Model()).(direction := Turned(old(direction), keyCode))
      ensures old(Inv(Model())) ==> Inv(Model())
    {
      if keyCode == VK_LEFT {
        if direction != 'R' {
          direction := 'L';
        }
      } else if keyCode == VK_RIGHT {
        if direction != 'L' {
          direction := 'R';
        }
      } else if keyCode == VK_UP {
        if direction != 'D' {
          direction := 'U';
        }
      } else if keyCode == VK_DOWN {
        if direction != 'U' {
          direction := 'D';
        }
      }
    }
  }
}

=== FILE: Rules.dfy ===
/**
 * The rules of the snake game panel, stated on values.
 *
 * A `Game` is a snapshot of every field of the panel that the game logic
 * reads or writes. The functions below give the effect of each operation of
 * the panel on such a snapshot; the class in module Panel is proved to
 * follow them, and the lemmas here and in module Traces state what the
 * rules promise.
 */
module Rules {

  const SCREEN_WIDTH: int := 600
  const SCREEN_HEIGHT: int := 600
  const UNIT_SIZE: int := 25
  /** Capacity of the coordinate arrays (not the number of cells, which is 24 * 24). */
  const GAME_UNITS: int := (SCREEN_WIDTH * SCREEN_HEIGHT) / UNIT_SIZE
  const INITIAL_BODY_PARTS: int := 6

  /** Key codes of the arrow keys, as java.awt.event.KeyEvent defines them. */
  const VK_LEFT: int := 37
  const VK_UP: int := 38
  const VK_RIGHT: int := 39
  const VK_DOWN: int := 40

  /**
   * Slot 0 of `xs`/`ys` is the head; slots 1 .. nBodyParts - 1 are the drawn
   * body. `direction` is one of 'U', 'D', 'L', 'R' in every reachable state.
   */
  datatype Game = Game(
    xs: seq<int>,
    ys: seq<int>,
    nBodyParts: int,
    nApplesEaten: int,
    appleX: int,
    appleY: int,
    direction: char,
    running: bool)

  /** The arrays have their fixed capacity and the body count is not negative. */
  predicate Shaped(g: Game) {
    |g.xs| == GAME_UNITS && |g.ys| == GAME_UNITS && g.nBodyParts >= 0
  }

  // ---------------------------------------------------------------- grid

  function WidthUnits(): (n: int)
    ensures n > 0 && n * UNIT_SIZE == SCREEN_WIDTH
  {
    SCREEN_WIDTH / UNIT_SIZE
  }

  function HeightUnits(): (n: int)
    ensures n > 0 && n * UNIT_SIZE == SCREEN_HEIGHT
  {
    SCREEN_HEIGHT / UNIT_SIZE
  }

  /** `r` is the value the random generator drew from [0, units). */
  function PickCoordinate(r: int, units: int): (c: int)
    requires 0 <= r < units
    ensures 0 <= c <= (units - 1) * UNIT_SIZE
    ensures c % UNIT_SIZE == 0 && c / UNIT_SIZE == r
  {
    r * UNIT_SIZE
  }

  /** The top-left corner of a cell of the visible grid. */
  predicate OnGrid(x: int, y: int) {
    0 <= x < SCREEN_WIDTH && 0 <= y < SCREEN_HEIGHT && x % UNIT_SIZE == 0 && y % UNIT_SIZE == 0
  }

  predicate Draws(rx: int, ry: int) {
    0 <= rx < WidthUnits() && 0 <= ry < HeightUnits()
  }

  /** newApple: both coordinates are drawn independently; the body is not avoided. */
  function PlaceApple(g: Game, rx: int, ry: int): (r: Game)
    requires Draws(rx, ry)
    ensures OnGrid(r.appleX, r.appleY)
    ensures r.appleX / UNIT_SIZE == rx && r.appleY / UNIT_SIZE == ry
    ensures r.(appleX := g.appleX, appleY := g.appleY) == g
  {
    g.(appleX := PickCoordinate(rx, WidthUnits()), appleY := PickCoordinate(ry, HeightUnits()))
  }

  /** The state right after the constructor: zeroed arrays, six parts, heading right, one apple. */
  function Start(rx: int, ry: int): (g: Game)
    requires Draws(rx, ry)
    ensures Inv(g) && g.running
    ensures g.appleX / UNIT_SIZE == rx && g.appleY / UNIT_SIZE == ry
    ensures g.nBodyParts == INITIAL_BODY_PARTS && g.nApplesEaten == 0 && g.direction == 'R'
    ensures forall i :: 0 <= i < GAME_UNITS ==> g.xs[i] == 0 && g.ys[i] == 0
  {
    var zeros := seq(GAME_UNITS, _ => 0);
    PlaceApple(Game(zeros, zeros, INITIAL_BODY_PARTS, 0, 0, 0, 'R', false), rx, ry).(running := true)
  }

  // ----------------------------------------------------------- direction

  predicate IsDirection(c: char) {
    c == 'U' || c == 'D' || c == 'L' || c == 'R'
  }

  function Opposite(c: char): (o: char)
    requires IsDirection(c)
    ensures IsDirection(o) && o != c
  {
    match c
    case 'U' => 'D'
    case 'D' => 'U'
    case 'L' => 'R'
    case 'R' => 'L'
  }

  predicate IsArrowKey(keyCode: int) {
    keyCode == VK_LEFT || keyCode == VK_RIGHT || keyCode == VK_UP || keyCode == VK_DOWN
  }

  function KeyDirection(keyCode: int): (d: char)
    requires IsArrowKey(keyCode)
    ensures IsDirection(d)
  {
    if keyCode == VK_LEFT then 'L'
    else if keyCode == VK_RIGHT then 'R'
    else if keyCode == VK_UP then 'U'
    else 'D'
  }

  /**
   * The direction after a key press: an arrow key turns the snake unless the
   * turn would reverse it; every other key is ignored.
   */
  function Turned(direction: char, keyCode: int): (d: char)
    ensures d == direction || (IsArrowKey(keyCode) && d == KeyDirection(keyCode))
    ensures IsDirection(direction) ==> IsDirection(d) && d != Opposite(direction)
    ensures IsDirection(direction) && IsArrowKey(keyCode) ==>
              (d == KeyDirection(keyCode) <==> KeyDirection(keyCode) != Opposite(direction))
  {
    if keyCode == VK_LEFT then (if direction != 'R' then 'L' else direction)
    else if keyCode == VK_RIGHT then (if direction != 'L' then 'R' else direction)
    else if keyCode == VK_UP then (if direction != 'D' then 'U' else direction)
    else if keyCode == VK_DOWN then (if direction != 'U' then 'D' else direction)
    else direction
  }

  // ---------------------------------------------------------------- move

  /** Horizontal step of the head for a direction (no step for an unknown one). */
  function DeltaX(direction: char): int {
    if direction == 'R' then UNIT_SIZE else if direction == 'L' then -UNIT_SIZE else 0
  }

  /** Vertical step of the head; y grows downwards. */
  function DeltaY(direction: char): int {
    if direction == 'D' then UNIT_SIZE else if direction == 'U' then -UNIT_SIZE else 0
  }

  /** Every slot 1 .. n takes the value of the slot before it; the others keep theirs. */
  function ShiftBack(s: seq<int>, n: int): (r: seq<int>)
    requires 0 <= n < |s|
    ensures |r| == |s| && r[0] == s[0]
    ensures forall i :: 1 <= i <= n ==> r[i] == s[i - 1]
    ensures forall i :: n < i < |s| ==> r[i] == s[i]
  {
    [s[0]] + s[..n] + s[n + 1..]
  }

  /** A sequence that agrees with ShiftBack(s, n) slot by slot is ShiftBack(s, n). */
  lemma ShiftBackByPoints(r: seq<int>, s: seq<int>, n: int)
    requires 0 <= n < |s| && |r| == |s| && r[0] == s[0]
    requires forall i :: 1 <= i <= n ==> r[i] == s[i - 1]
    requires forall i :: n < i < |s| ==> r[i] == s[i]
    ensures r == ShiftBack(s, n)
  {
  }

  /**
   * move: the shift register over slots nBodyParts down to 1, then one unit
   * of head movement in `direction`. Only defined while slot nBodyParts
   * exists; beyond that the source's first write is out of bounds.
   */
  function Moved(g: Game): (r: Game)
    requires Shaped(g) && g.nBodyParts < GAME_UNITS
    ensures Shaped(r)
    ensures forall i :: 1 <= i <= g.nBodyParts ==> r.xs[i] == g.xs[i - 1] && r.ys[i] == g.ys[i - 1]
    ensures forall i :: g.nBodyParts < i < GAME_UNITS ==> r.xs[i] == g.xs[i] && r.ys[i] == g.ys[i]
    ensures g.direction == 'R' ==> r.xs[0] == g.xs[0] + UNIT_SIZE && r.ys[0] == g.ys[0]
    ensures g.direction == 'L' ==> r.xs[0] == g.xs[0] - UNIT_SIZE && r.ys[0] == g.ys[0]
    ensures g.direction == 'D' ==> r.ys[0] == g.ys[0] + UNIT_SIZE && r.xs[0] == g.xs[0]
    ensures g.direction == 'U' ==> r.ys[0] == g.ys[0] - UNIT_SIZE && r.xs[0] == g.xs[0]
    ensures !IsDirection(g.direction) ==> r.xs[0] == g.xs[0] && r.ys[0] == g.ys[0]
    ensures r.(xs := g.xs, ys := g.ys) == g
  {
    var xs := ShiftBack(g.xs, g.nBodyParts);
    var ys := ShiftBack(g.ys, g.nBodyParts);
    g.(xs := xs[0 := xs[0] + DeltaX(g.direction)], ys := ys[0 := ys[0] + DeltaY(g.direction)])
  }

  // --------------------------------------------------------------- apple

  /**
   * isHeadOfSnakeOnTopOfApple: the head's cell is the apple's cell. For a
   * head within reach and an apple on the grid, comparing the coordinates
   * is the same as comparing the cell numbers.
   */
  predicate OnApple(g: Game)
    requires Shaped(g)
    ensures OnApple(g) && OnGrid(g.appleX, g.appleY) ==> OnGrid(g.xs[0], g.ys[0])
    ensures InReach(g.xs[0], g.ys[0]) && OnGrid(g.appleX, g.appleY) ==>
              (OnApple(g) <==> g.xs[0] / UNIT_SIZE == g.appleX / UNIT_SIZE
                               && g.ys[0] / UNIT_SIZE == g.appleY / UNIT_SIZE)
  {
    g.xs[0] == g.appleX && g.ys[0] == g.appleY
  }

  /** eatApple: one more body part, one more apple eaten, a new apple. */
  function Eat(g: Game, rx: int, ry: int): (r: Game)
    requires Draws(rx, ry)
    ensures r.nBodyParts == g.nBodyParts + 1 && r.nApplesEaten == g.nApplesEaten + 1
    ensures r.nBodyParts - r.nApplesEaten == g.nBodyParts - g.nApplesEaten
    ensures OnGrid(r.appleX, r.appleY) && r.appleX / UNIT_SIZE == rx && r.appleY / UNIT_SIZE == ry
    ensures r.(nBodyParts := g.nBodyParts, nApplesEaten := g.nApplesEaten,
               appleX := g.appleX, appleY := g.appleY) == g
  {
    PlaceApple(g.(nBodyParts := g.nBodyParts + 1, nApplesEaten := g.nApplesEaten + 1), rx, ry)
  }

  /** checkApple: eat exactly when the head is on the apple; otherwise nothing changes. */
  function AfterCheckApple(g: Game, rx: int, ry: int): (r: Game)
    requires Shaped(g) && Draws(rx, ry)
    ensures Shaped(r)
    ensures OnApple(g) ==> r.nBodyParts == g.nBodyParts + 1 && r.nApplesEaten == g.nApplesEaten + 1
                           && OnGrid(r.appleX, r.appleY)
                           && r.appleX / UNIT_SIZE == rx && r.appleY / UNIT_SIZE == ry
    ensures !OnApple(g) ==> r == g
    ensures r.xs == g.xs && r.ys == g.ys && r.direction == g.direction && r.running == g.running
  {
    if OnApple(g) then Eat(g, rx, ry) else g
  }

  // ---------------------------------------------------------- collisions

  /**
   * isHeadCollidingWithBorderOfGame, the disjunction of the left, right, top
   * and bottom border tests: the head is outside [0, SCREEN_WIDTH) x
   * [0, SCREEN_HEIGHT). For a head on a cell corner, that is leaving the grid.
   */
  predicate HitsBorder(g: Game)
    requires Shaped(g)
    ensures g.xs[0] % UNIT_SIZE == 0 && g.ys[0] % UNIT_SIZE == 0 ==>
              (HitsBorder(g) <==> !OnGrid(g.xs[0], g.ys[0]))
  {
    g.xs[0] < 0 || g.xs[0] >= SCREEN_WIDTH || g.ys[0] < 0 || g.ys[0] >= SCREEN_HEIGHT
  }

  /**
   * The head shares its cell with some slot 1 .. nBodyParts. The upper end is
   * inclusive, one slot beyond the drawn body, as in the source's scan.
   */
  predicate HitsBody(g: Game)
    requires Shaped(g) && g.nBodyParts < GAME_UNITS
  {
    exists i :: 1 <= i <= g.nBodyParts && g.xs[i] == g.xs[0] && g.ys[i] == g.ys[0]
  }

  /**
   * Right after a move in one of the four directions, the scan finds the
   * head exactly when the head has landed on a cell that slots
   * 1 .. nBodyParts - 1 held before the move. That range includes the tail
   * cell the move has just vacated. Slot 1 now holds the old head, which a
   * step of one unit always leaves.
   */
  lemma {:induction false} HitsBodyAfterMove(g: Game)
    requires Shaped(g) && g.nBodyParts < GAME_UNITS && IsDirection(g.direction)
    ensures var m := Moved(g);
      HitsBody(m) <==> exists j :: 1 <= j < g.nBodyParts && g.xs[j] == m.xs[0] && g.ys[j] == m.ys[0]
  {
    var m := Moved(g);
    if HitsBody(m) {
      var i :| 1 <= i <= g.nBodyParts && m.xs[i] == m.xs[0] && m.ys[i] == m.ys[0];
      assert i - 1 != 0 by {
        assert m.xs[0] != g.xs[0] || m.ys[0] != g.ys[0];
      }
      assert g.xs[i - 1] == m.xs[0] && g.ys[i - 1] == m.ys[0];
    }
    if exists j :: 1 <= j < g.nBodyParts && g.xs[j] == m.xs[0] && g.ys[j] == m.ys[0] {
      var j :| 1 <= j < g.nBodyParts && g.xs[j] == m.xs[0] && g.ys[j] == m.ys[0];
      assert m.xs[j + 1] == m.xs[0] && m.ys[j + 1] == m.ys[0];
    }
  }

  /** checkCollisions: a collision of either kind stops the game; nothing else changes. */
  function AfterCollisions(g: Game): (r: Game)
    requires Shaped(g) && g.nBodyParts < GAME_UNITS
    ensures r.running <==> g.running && !HitsBody(g) && !HitsBorder(g)
    ensures r.(running := g.running) == g
  {
    if HitsBody(g) || HitsBorder(g) then g.(running := false) else g
  }

  // ---------------------------------------------------------------- tick

  /**
   * The array access that fails when the body count has reached the
   * capacity: either the first write of move, or (after an apple made the
   * count reach it) the first read of the body scan.
   */
  predicate TickThrows(g: Game, rx: int, ry: int)
    requires Shaped(g) && Draws(rx, ry)
    ensures TickThrows(g, rx, ry) <==>
              g.running && (g.nBodyParts >= GAME_UNITS
                            || (g.nBodyParts == GAME_UNITS - 1 && OnApple(Moved(g))))
  {
    g.running &&
    (g.nBodyParts >= GAME_UNITS || AfterCheckApple(Moved(g), rx, ry).nBodyParts >= GAME_UNITS)
  }

  /**
   * actionPerformed: while running, move, check the apple, check collisions.
   * An exception abandons the rest of the tick and keeps what was done.
   */
  function AfterTick(g: Game, rx: int, ry: int): (r: Game)
    requires Shaped(g) && Draws(rx, ry)
    ensures Shaped(r)
    ensures !g.running ==> r == g
    ensures r.running ==> g.running
    ensures r.nBodyParts - r.nApplesEaten == g.nBodyParts - g.nApplesEaten
    ensures g.nApplesEaten <= r.nApplesEaten <= g.nApplesEaten + 1
    ensures r.direction == g.direction
  {
    if !g.running then g
    else if g.nBodyParts >= GAME_UNITS then g
    else
      var m := AfterCheckApple(Moved(g), rx, ry);
      if m.nBodyParts >= GAME_UNITS then m else AfterCollisions(m)
  }

  // ----------------------------------------------------------- invariant

  /**
   * What holds of every state the panel can reach: the counters are
   * coupled, and the body count never passes the capacity (a tick at the
   * capacity throws before it can grow the body), so neither counter comes
   * near the 32-bit range; the direction is valid; the apple lies on the
   * grid; a running head lies inside the board; every slot is a cell corner
   * at most one unit outside the board; slots past the body have never been
   * written.
   */
  predicate Inv(g: Game) {
    && Shaped(g)
    && g.nApplesEaten >= 0
    && g.nBodyParts - g.nApplesEaten == INITIAL_BODY_PARTS
    && g.nBodyParts <= GAME_UNITS
    && IsDirection(g.direction)
    && OnGrid(g.appleX, g.appleY)
    && (g.running ==> !HitsBorder(g))
    && (forall i :: 0 <= i < GAME_UNITS ==> InReach(g.xs[i], g.ys[i]))
    && (forall i :: g.nBodyParts < i < GAME_UNITS ==> g.xs[i] == 0 && g.ys[i] == 0)
  }

  /** A cell of the grid or of the ring of cells just outside it. */
  predicate InReach(x: int, y: int) {
    -UNIT_SIZE <= x <= SCREEN_WIDTH && -UNIT_SIZE <= y <= SCREEN_HEIGHT
    && x % UNIT_SIZE == 0 && y % UNIT_SIZE == 0
  }

  /** A tick keeps the invariant, whichever path through it is taken. */
  lemma TickKeepsInv(g: Game, rx: int, ry: int)
    requires Inv(g) && Draws(rx, ry)
    ensures Inv(AfterTick(g, rx, ry))
  {
    if g.running && g.nBodyParts < GAME_UNITS {
      var mv := Moved(g);
      assert forall i :: 0 <= i < GAME_UNITS ==> InReach(mv.xs[i], mv.ys[i]) by {
        forall i | 0 <= i < GAME_UNITS ensures InReach(mv.xs[i], mv.ys[i]) {
          if i == 0 {
            assert !HitsBorder(g);
          } else if i <= g.nBodyParts {
            assert mv.xs[i] == g.xs[i - 1] && mv.ys[i] == g.ys[i - 1];
          } else {
            assert mv.xs[i] == g.xs[i] && mv.ys[i] == g.ys[i];
          }
        }
      }
      var m := AfterCheckApple(mv, rx, ry);
      if m.nBodyParts >= GAME_UNITS {
        assert OnApple(mv);
      }
    }
  }

  /** A key press keeps the invariant: it only ever changes the direction to a valid one. */
  lemma TurnKeepsInv(g: Game, keyCode: int)
    requires Inv(g)
    ensures Inv(g.(direction := Turned(g.direction, keyCode)))
  {
  }
}

=== FILE: Traces.dfy ===
/**
 * Runs of the panel: any sequence of timer ticks and key presses, applied
 * one after the other to a snapshot. The lemmas here are about whole runs
 * and about particular situations of one tick.
 */
module Traces {
  import opened Rules

  /** A timer tick (with the draws a new apple would consume) or a key press. */
  datatype Event = Tick(rx: int, ry: int) | KeyPress(keyCode: int)

  predicate WellDrawn(e: Event) {
    e.Tick? ==> Draws(e.rx, e.ry)
  }

  predicate AllWellDrawn(events: seq<Event>) {
    forall i :: 0 <= i < |events| ==> WellDrawn(events[i])
  }

  function Step(g: Game, e: Event): (r: Game)
    requires Shaped(g) && WellDrawn(e)
    ensures Shaped(r)
  {
    match e
    case Tick(rx, ry) => AfterTick(g, rx, ry)
    case KeyPress(k) => g.(direction := Turned(g.direction, k))
  }

  function Run(g: Game, events: seq<Event>): (r: Game)
    requires Shaped(g) && AllWellDrawn(events)
    ensures Shaped(r)
    decreases |events|
  {
    if events == [] then g
    else Run(Step(g, events[0]), events[1..])
  }

  // ------------------------------------------------------------------ runs

  /** Every run from a state that satisfies the invariant ends in one that does. */
  lemma {:induction false} RunKeepsInv(g: Game, events: seq<Event>)
    requires Inv(g) && AllWellDrawn(events)
    ensures Inv(Run(g, events))
    decreases |events|
  {
    if events != [] {
      match events[0] {
        case Tick(rx, ry) => TickKeepsInv(g, rx, ry);
        case KeyPress(k) => TurnKeepsInv(g, k);
      }
      RunKeepsInv(Step(g, events[0]), events[1..]);
    }
  }

  /**
   * In every state reachable from the start: the body has exactly six parts
   * more than apples eaten and at most GAME_UNITS parts, the direction is
   * one of the four, and the apple is on the grid.
   */
  lemma Reachable(rx: int, ry: int, events: seq<Event>)
    requires Draws(rx, ry) && AllWellDrawn(events)
    ensures var g := Run(Start(rx, ry), events);
      g.nBodyParts - g.nApplesEaten == INITIAL_BODY_PARTS && g.nApplesEaten >= 0
      && g.nBodyParts <= GAME_UNITS
      && IsDirection(g.direction) && OnGrid(g.appleX, g.appleY)
  {
    RunKeepsInv(Start(rx, ry), events);
  }

  /** Neither counter ever decreases, and a run never sets `running` from false to true. */
  lemma {:induction false} RunMonotone(g: Game, events: seq<Event>)
    requires Shaped(g) && AllWellDrawn(events)
    ensures Run(g, events).nApplesEaten >= g.nApplesEaten
    ensures Run(g, events).nBodyParts >= g.nBodyParts
    ensures Run(g, events).running ==> g.running
    decreases |events|
  {
    if events != [] {
      RunMonotone(Step(g, events[0]), events[1..]);
    }
  }

  /**
   * Once the game is lost, ticks change nothing: the only field a run can
   * still change is the direction, since key presses are not guarded by
   * the running flag.
   */
  lemma {:induction false} RunAfterLoss(g: Game, events: seq<Event>)
    requires Shaped(g) && !g.running && AllWellDrawn(events)
    ensures Run(g, events) == g.(direction := Run(g, events).direction)
    decreases |events|
  {
    if events != [] {
      RunAfterLoss(Step(g, events[0]), events[1..]);
    }
  }

  // ------------------------------------------------------------- one tick

  /**
   * The first tick from the start: the head, at (0, 0) heading right,
   * arrives at (UNIT_SIZE, 0), the old slots all hold (0, 0), and the game
   * goes on.
   */
  lemma FirstTick(rx: int, ry: int, rx2: int, ry2: int)
    requires Draws(rx, ry) && Draws(rx2, ry2)
    ensures var g := AfterTick(Start(rx, ry), rx2, ry2);
      g.running && g.xs[0] == UNIT_SIZE && g.ys[0] == 0
      && (forall i :: 1 <= i < GAME_UNITS ==> g.xs[i] == 0 && g.ys[i] == 0)
  {
  }

  /** A head in the rightmost column that moves right leaves the board and ends the game. */
  lemma RightBorderEndsGame(g: Game, rx: int, ry: int)
    requires Inv(g) && g.running && g.direction == 'R' && Draws(rx, ry)
    requires g.xs[0] == SCREEN_WIDTH - UNIT_SIZE && g.nBodyParts < GAME_UNITS
    ensures var r := AfterTick(g, rx, ry); !r.running && r.xs[0] == SCREEN_WIDTH
  {
  }

  /** A key press that is not a reversal, then a tick: the head steps one unit the new way. */
  lemma TurnThenTick(g: Game, keyCode: int, rx: int, ry: int)
    requires Inv(g) && g.running && Draws(rx, ry) && g.nBodyParts < GAME_UNITS
    requires IsArrowKey(keyCode) && KeyDirection(keyCode) != Opposite(g.direction)
    ensures var r := AfterTick(g.(direction := Turned(g.direction, keyCode)), rx, ry);
      r.xs[0] == g.xs[0] + DeltaX(KeyDirection(keyCode))
      && r.ys[0] == g.ys[0] + DeltaY(KeyDirection(keyCode))
  {
  }

  /**
   * The no-reversal rule compares a key with the direction last set, not
   * with the direction of the last move: whatever the direction, two
   * presses between ticks can point the snake back at its neck.
   */
  lemma TwoPressesReverse(d: char)
    requires IsDirection(d)
    ensures exists k1, k2 :: IsArrowKey(k1) && IsArrowKey(k2) && Turned(Turned(d, k1), k2) == Opposite(d)
  {
    var (k1, k2) :=
      if d == 'R' then (VK_UP, VK_LEFT)
      else if d == 'L' then (VK_UP, VK_RIGHT)
      else if d == 'U' then (VK_LEFT, VK_DOWN)
      else (VK_LEFT, VK_UP);
    assert IsArrowKey(k1) && IsArrowKey(k2) && Turned(Turned(d, k1), k2) == Opposite(d);
  }

  /**
   * A head that moves onto a cell held before the move by any slot
   * 1 .. nBodyParts - 1 of the drawn body ends the game.
   */
  lemma IntoBodyEndsGame(g: Game, rx: int, ry: int, j: int)
    requires Inv(g) && g.running && Draws(rx, ry) && g.nBodyParts + 1 < GAME_UNITS
    requires 1 <= j < g.nBodyParts
    requires var mv := Moved(g); mv.xs[0] == g.xs[j] && mv.ys[0] == g.ys[j]
    ensures !AfterTick(g, rx, ry).running
  {
    var m := AfterCheckApple(Moved(g), rx, ry);
    assert m.xs[j + 1] == m.xs[0] && m.ys[j + 1] == m.ys[0];
  }

  /**
   * The scan includes slot nBodyParts, which after move holds the cell the
   * tail has just left: a head that moves into that cell loses the game,
   * although no part of the drawn body is there.
   */
  lemma IntoVacatedTailCellEndsGame(g: Game, rx: int, ry: int)
    requires Inv(g) && g.running && Draws(rx, ry) && g.nBodyParts + 1 < GAME_UNITS
    requires var mv := Moved(g);
      mv.xs[0] == g.xs[g.nBodyParts - 1] && mv.ys[0] == g.ys[g.nBodyParts - 1]
    ensures !AfterTick(g, rx, ry).running
  {
    var mv := Moved(g);
    var m := AfterCheckApple(mv, rx, ry);
    var n := g.nBodyParts;
    assert m.xs[n] == g.xs[n - 1] && m.ys[n] == g.ys[n - 1];
    assert HitsBody(m);
  }

  /**
   * Eating an apple at (0, 0) loses the game: the scan then reaches the
   * slot just added to the body, which has never been written and holds (0, 0).
   */
  lemma AppleAtOriginIsFatal(g: Game, rx: int, ry: int)
    requires Inv(g) && g.running && Draws(rx, ry) && g.nBodyParts + 1 < GAME_UNITS
    requires g.appleX == 0 && g.appleY == 0
    requires var mv := Moved(g); mv.xs[0] == 0 && mv.ys[0] == 0
    ensures !AfterTick(g, rx, ry).running
    ensures AfterTick(g, rx, ry).nApplesEaten == g.nApplesEaten + 1
  {
    var mv := Moved(g);
    var m := AfterCheckApple(mv, rx, ry);
    var n := m.nBodyParts;
    assert m.xs[n] == g.xs[n] && m.ys[n] == g.ys[n];
    assert HitsBody(m);
  }
}
